=== FILE: README.md ===
# sens-vuer viewer state, modelled in Dafny

sens-vuer is a React front end over the cornerstone rendering library. It has
an image catalog in a sidebar, one to four canvases depending on the
comparison layout, a toolbox, an export dialog and a password gate. This
project models the state those components keep and the decision rules around
it:

- the global viewer store (`ViewerStore`, `viewer_store.dfy`): engine
  presence, the one shared image stack, a loading flag per viewport, the
  tool, the layout and the rendered image id, their setters, and
  `renderImage`;
- the toolbox toggle machine (`Toolbox`, `toolbox.dfy`);
- the image catalog of the sidebar (`ImageInput`, `image_input.dfy`);
- a canvas's drag-and-drop routing, loading overlay and mount effect
  (`Canvas`, `canvas.dfy`);
- the viewer page's layout-to-viewports mapping (`ViewerPage`,
  `viewer_page.dfy`);
- the export dialog's bookkeeping (`ExportDialog`, `export_dialog.dfy`);
- the authentication context (`Auth`, `auth.dfy`);
- the `useEffectOnce` hook (`EffectOnce`, `effect_once.dfy`);
- shared helpers (`Common`, `common.dfy`): an `Option` for JavaScript's
  null/undefined, JavaScript truthiness of strings, and the two forms of
  `String.prototype.replace` the code uses.

Every component is an immutable record with pure transition functions. The
rendering engine is abstract. Each engine lookup, and each engine call whose
failure the code handles, appears as a parameter giving its outcome: no
engine, a missing viewport, a load in `renderImage` that succeeds or throws,
an `enableElement` that throws, a tool group that exists or can be created.
The remaining engine calls are assumed to complete (see "Left out"). Browser
services are inputs too. The clock becomes an ISO timestamp string,
`URL.createObjectURL` becomes an object URL carried by each picked file, and
`localStorage` becomes a string map.

JavaScript's truthiness is modelled where the code relies on it. An empty
string counts as "missing" for a drop payload, the dialog's
`renderedImageId`, its selected viewport and its preview.

Behaviour of the code worth knowing:

- there is one global stack, not one per viewport, so `renderImage` into any
  viewport overwrites it (`RenderAllLastWins`), and the next canvas to mount
  loads that stack (`Canvas.DropDecidesNextMount`);
- `renderImage` always replaces the stack with `[imageId]`, and there is no
  index-based selection within a stack;
- there is no undo/redo, no keyboard shortcut table and no zoom tracking;
- a drop on a canvas with drops disabled returns before clearing the drag
  highlight (only drag-leave always clears it), though such a canvas is never
  highlighted in the first place (`Canvas.NoDropNeverHighlighted`).

The toolbox looks up the engine "myRenderingEngine" and the viewport
"COLOR_STACK", the ids the demo page uses. The viewer page registers its
engine as "sens-vuer_rendering-engine". The model keeps that lookup
abstract, as `Toolbox.InvertTarget`.

## Model

| member | source | states |
|---|---|---|
| `ViewerStore.Initial` | src/store/viewerStore.tsx:24-32 | the store starts with no engine, no tool, an empty stack, no rendered image, the single layout, and an empty loading map, so no viewport shows a loading overlay |
| `ViewerStore.SetRenderingEngine` | src/store/viewerStore.tsx:34 | afterwards an engine is present and nothing else in the store changed |
| `ViewerStore.SetRenderedImageId` | src/store/viewerStore.tsx:35 | the rendered image id is the given one and nothing else changed |
| `ViewerStore.SetTool` | src/store/viewerStore.tsx:36 | the tool is the given one and nothing else changed |
| `ViewerStore.SetStack` | src/store/viewerStore.tsx:44 | the stack is the given one and nothing else changed |
| `ViewerStore.SetViewMode` | src/store/viewerStore.tsx:45 | the layout is the given one and nothing else changed |
| `ViewerStore.SetIsLoading` | src/store/viewerStore.tsx:37-43 | the viewport's flag reads as the given value, its key is added if absent, and every other viewport's entry (present or absent) is unchanged |
| `ViewerStore.TargetViewport` | src/store/viewerStore.tsx:54 | with no viewport id the primary viewport is targeted, otherwise the given id (even an empty one) |
| `ViewerStore.RenderImage` | src/store/viewerStore.tsx:49-78 | without an engine nothing changes; past that check the target's flag ends false; a missing viewport leaves the stack alone; an existing one gets `[imageId]` as the shared stack whether or not the load throws; a load is awaited exactly when one is issued, and meanwhile the target is marked loading with only its flag and the stack changed; the rendered id, tool, layout and every other viewport's flag are untouched |
| `ViewerStore.RenderOutcomeIrrelevant` | src/store/viewerStore.tsx:68-77 | the store ends the same whether the engine's load succeeds or throws |
| `ViewerStore.RenderAllQuiescent` | src/store/viewerStore.tsx:56-77 | after any sequence of completed calls from a store with no viewport loading, still no viewport is loading, and only flags and the stack changed |
| `ViewerStore.RenderAllLastWins` | src/store/viewerStore.tsx:69 | after a sequence of calls whose last one finds its viewport, the shared stack is that call's single image, whichever viewports the calls targeted |
| `Toolbox.OnZoom` | src/components/Toolbox.tsx:24-30 | the zoom icon's highlight flips, invert is never left highlighted, and the invert flag is unchanged |
| `Toolbox.ZoomTwice` | src/components/Toolbox.tsx:24-30 | two zoom presses return to the starting state unless invert was toggled |
| `Toolbox.OnInvert` | src/components/Toolbox.tsx:33-53 | the invert highlight flips and zoom's is cleared; without an engine the flag follows the highlight and nothing is sent; with a viewport the value sent and the final flag are both the negation of the flag before the click; a missing viewport makes the handler throw |
| `Toolbox.InvertHighlightDiverges` | src/components/Toolbox.tsx:33-53 | invert, zoom, invert with the viewport present ends with invert highlighted while the viewport was told not to invert |
| `Toolbox.OnInvertIntended` | src/components/Toolbox.tsx:33-53 | as `OnInvert`, but the value sent and the flag kept both equal whether invert is now highlighted |
| `Toolbox.RunKeepsInvariant` | src/components/Toolbox.tsx:15-16 | with the corrected invert handler (`OnInvertIntended`), over any click sequence the toggled tool stays one of "zoom", "invert" or none, the two icons are never both highlighted, and a highlighted invert icon means the flag is set |
| `Toolbox.RunFromInitial` | src/components/Toolbox.tsx:15-16 | with the corrected invert handler (`OnInvertIntended`), every state reachable from the initial toolbox keeps that invariant |
| `Toolbox.RunAsWrittenKeepsToggle` | src/components/Toolbox.tsx:15-53 | with the source's own invert handler, over any click sequence the toggled tool stays one of "zoom", "invert" or none and the two icons are never both highlighted |
| `ImageInput.BuildEntries` | src/components/ImageInput.tsx:30-38 | the loop produces one entry per file in file order, with id "web:" plus the object URL and the file's name, and the list of their ids |
| `ImageInput.HandleFiles` | src/components/ImageInput.tsx:27-61 | a null or empty list changes nothing; otherwise the catalog is the old one followed by the new entries and `onImagesAdded` gets all catalog ids; with engine and viewport the viewport gets all ids and the first entry is highlighted, otherwise nothing is loaded and the highlight stays |
| `ImageInput.HandleImageClick` | src/components/ImageInput.tsx:64-84 | with engine and viewport the viewport gets the single clicked id and it becomes the highlighted one; otherwise nothing changes; the catalog is never changed; after a click that reaches the viewport exactly the clicked entry is highlighted |
| `ImageInput.ThumbnailRoundTrip` | src/components/ImageInput.tsx:100 | removing the first "web:" from an id built from an object URL gives back that URL exactly, even if the URL contains "web:" |
| `ImageInput.ThumbnailsOfAddedFiles` | src/components/ImageInput.tsx:33-36 | every entry a file pick adds shows its own file's object URL and name |
| `ImageInput.Initial` | src/components/ImageInput.tsx:24-25 | the sidebar starts with no entries and nothing highlighted |
| `ImageInput.PickFromInitial` | src/components/ImageInput.tsx:24-59 | from the initial state, after any picks the catalog is exactly every picked file's entry, in order |
| `ImageInput.UploadLabel` | src/components/ImageInput.tsx:126 | the button text after the icon is " Select more Images" exactly when the catalog is non-empty and " Select  Images" otherwise, keeping the JSX space after the icon |
| `ImageInput.LabelAfterPick` | src/components/ImageInput.tsx:86 | after any non-empty pick the catalog is non-empty and the button offers more images |
| `ImageInput.PickAllAppends` | src/components/ImageInput.tsx:40-41 | after any sequence of picks the catalog is the old one followed by every picked file's entry in order; nothing is dropped or reordered |
| `Canvas.New` | src/components/Canvas.tsx:22-27 | a new canvas is not highlighted and accepts drops unless `enableDrop` is explicitly false |
| `Canvas.DragHover` | src/components/Canvas.tsx:86-95 | drag-over and drag-enter set the highlight only when drops are enabled and change nothing else |
| `Canvas.DragLeave` | src/components/Canvas.tsx:96 | drag-leave always clears the highlight |
| `Canvas.Drop` | src/components/Canvas.tsx:97-104 | with drops disabled nothing happens; otherwise the highlight is cleared, and a `renderImage` request is issued iff the payload is non-empty, for this canvas's own viewport |
| `Canvas.NoDropNeverHighlighted` | src/components/Canvas.tsx:86-98 | a canvas with drops disabled stays unchanged under any sequence of drag events |
| `Canvas.DropIntoStore` | src/components/Canvas.tsx:103 | a drop that issues no request leaves the store alone; otherwise the store is `renderImage` of the payload into this canvas's viewport |
| `Canvas.DropIsolation` | src/components/Canvas.tsx:103 | a drop leaves every other viewport's loading flag and all of the store except flags and the shared stack unchanged |
| `Canvas.LoadingOverlay` | src/components/Canvas.tsx:32 | the overlay shows iff the viewport has a loading entry and it is true |
| `Canvas.Mount` | src/components/Canvas.tsx:34-78 | without engine or element nothing happens; an existing `toolgroup-<id>` group is reused; a failed creation stops the effect; otherwise the viewport is added to the group's earlier members (the group is created empty if new), no other group appears and no other group changes; the store's stack is loaded iff the viewport exists and the stack is non-empty |
| `Canvas.EnableErrorCaught` | src/components/Canvas.tsx:38-46 | a throwing `enableElement` does not change the rest of the mount |
| `Canvas.DropDecidesNextMount` | src/components/Canvas.tsx:74-76 | after a successful drop of an image on any canvas, the next canvas to mount loads exactly that image |
| `ViewerPage.MountedViewports` | src/pages/Viewer.tsx:39-76 | nothing is mounted before the engine is set; afterwards the primary viewport comes first, and the ids are exactly the primary, the dual-comparison viewport, or the three quad viewports, by layout |
| `ViewerPage.MountedViewportsWellFormed` | src/pages/Viewer.tsx:61-76 | once the engine is set the primary viewport is mounted, the layouts mount 1, 2 and 4 canvases, and no id is mounted twice |
| `ViewerPage.PrimaryKeyDistinct` | src/pages/Viewer.tsx:62 | distinct layouts give the primary canvas distinct keys, so switching layout remounts it |
| `ExportDialog.DefaultFileName` | src/components/ExportImageDialog.tsx:21-24 | the default name is "sensvuer-export-" followed by the timestamp with each ':' and '.' turned into '-', other characters kept, and contains neither ':' nor '.' |
| `ExportDialog.Initial` | src/components/ExportImageDialog.tsx:20-27 | the dialog starts with no preview, no selection, not loading, annotations on, and the default file name |
| `ExportDialog.PreviewViewport` | src/components/ExportImageDialog.tsx:47 | the preview uses the selected viewport when it exists, the first viewport otherwise, and none when there are no viewports |
| `ExportDialog.GeneratePreview` | src/components/ExportImageDialog.tsx:39-101 | without engine or a rendered image nothing happens; otherwise loading ends false, a failure keeps the previous preview, a capture of the chosen viewport becomes the preview, and nothing else changes |
| `ExportDialog.OnOpen` | src/components/ExportImageDialog.tsx:30-37 | a closed dialog does nothing; an open one generates a preview, throws when the engine is missing, and selects the first viewport when there are viewports and none is selected |
| `ExportDialog.OpenPreviewMatchesSelection` | src/components/ExportImageDialog.tsx:33-34 | opening with nothing selected previews the first viewport, the same one the selection is then set to |
| `ExportDialog.HandleExport` | src/components/ExportImageDialog.tsx:103-110 | with no preview (the Export button is disabled) nothing happens; otherwise the preview is offered as the file name plus ".png" and the dialog asks to close |
| `ExportDialog.DefaultExportName` | src/components/ExportImageDialog.tsx:106 | exporting under the default name downloads that name plus ".png", with no ':' or '.' before the extension |
| `ExportDialog.ViewportLabel` | src/components/ExportImageDialog.tsx:150 | a viewport label is its id with every '_' turned into a space, and contains no '_' |
| `Auth.ConfiguredPassword` | src/lib/authContext.tsx:3-5 | the first variable is used unless unset or empty, in which case the second one is used as it is |
| `Auth.FirstRender` | src/lib/authContext.tsx:16 | the provider's first render is logged out whatever storage holds, and storage is untouched |
| `Auth.Restore` | src/lib/authContext.tsx:18-21 | after the mount effect the session is authenticated iff storage holds `loggedIn` = "true" exactly; storage is only read |
| `Auth.Login` | src/lib/authContext.tsx:23-30 | login succeeds iff a password is configured and equals the given one; success sets the flag and stores `loggedIn` = "true", failure changes nothing |
| `Auth.Logout` | src/lib/authContext.tsx:32-35 | logout clears the flag and removes exactly the `loggedIn` key |
| `Auth.SessionSurvivesReload` | src/lib/authContext.tsx:16-35 | login and logout keep flag and storage in step, so after any session a reload, once its mount effect has run, has the flag the session ended with; its first render is logged out |
| `Auth.NoPasswordNoLogin` | src/lib/authContext.tsx:23-30 | with no configured password no sequence of actions authenticates a logged-out session |
| `EffectOnce.Mount` | src/lib/useEffectOnce.tsx:4-5 | the hook starts not run, holding the effect of the first render |
| `EffectOnce.Rerender` | src/lib/useEffectOnce.tsx:5 | later renders keep the first effect and the run flag |
| `EffectOnce.Fire` | src/lib/useEffectOnce.tsx:7-12 | the first callback runs the captured effect, sets the flag and returns the effect's cleanup; later callbacks run nothing and return nothing |
| `EffectOnce.RunsAtMostOnce` | src/lib/useEffectOnce.tsx:8-11 | over any sequence of renders and callbacks at most one effect runs, none once the flag is set, and only the captured one |
| `EffectOnce.FirstEffectOnly` | src/lib/useEffectOnce.tsx:5-11 | over a hook's life only the first-rendered effect can run, at most once |
| `Common.ReplaceFirst` | src/components/ImageInput.tsx:100 | a string pattern replaces its first occurrence only, and a string without one is returned unchanged |
| `Common.ReplaceAllChars` | src/components/ExportImageDialog.tsx:22 | a global character-class replacement rewrites exactly the listed characters and keeps the length |
| `Common.ReplaceAllCharsRemovesTargets` | src/components/ExportImageDialog.tsx:22 | after it no listed character is left |

## Findings

| source | as written | input that shows it | evidently intended | confidence | as-written member | corrected member |
|---|---|---|---|---|---|---|
| src/components/Toolbox.tsx:33-51 | with a viewport, `onInvert` sends `!invert` (the flag before the click) and writes it over the flag the branch just set | invert, zoom, invert with the viewport present: the invert icon is highlighted, but the viewport is told `invert: false` and the flag is false | the value sent and kept is whether invert is now toggled, as the branch sets it | medium; not executed | `Toolbox.OnInvert`, `Toolbox.InvertHighlightDiverges` | `Toolbox.OnInvertIntended`, `Toolbox.RunKeepsInvariant` |

`Toolbox.Run` uses the corrected handler.

## Left out

- Cornerstone internals: `enableElement`, `setStack`/`render`, `setProperties`, tool registration and bindings (`addTool`, `setToolActive`). Where the code handles a failure, the call is reduced to the outcome it reports; the other calls are assumed to complete, as listed below.
- Canvas and SVG compositing, and PNG data-URL encoding, in the export dialog. These are browser I/O, folded into the abstract `capture` parameter.
- The download link click and `onOpenChange`: `HandleExport` reports the offered download and the close request.
- `Date`: the ISO timestamp is an input.
- The zoom overlay: it formats a constant zoom of 1 as a percentage, using floating point.
- Async interleaving: two `renderImage` calls overlapping on one viewport, and the preview's `await` overlapping the open effect. Each call is modelled as running to completion.
- The viewer page's engine initialisation (cornerstone `init`, image loader and metadata registration) and its cleanup `destroy()`. The store only sees `setRenderingEngine`.
- The dialog's plain input setters: file name, annotations switch and radio selection. Each sets one field. `SelectorShown` (the viewport selector only outside the single layout) and `ExportEnabled` are predicates with no further contract.
- JSX rendering, grid layout classes, tooltips and styling in every file.
- The demo page, the settings dialog, the login form, the private route and the app's routing. They only wire the modelled parts together or log.
- ViewerStore.RenderImage: an engine lookup that yields an object but throws inside `getViewport` is not modelled; only "no engine", "viewport missing" and "viewport present" are.
- ImageInput.HandleFiles, ImageInput.HandleImageClick: the viewport's un-awaited `setStack` and its `render()` (ImageInput.tsx lines 56-57 and 80-81) are assumed not to throw; a synchronous throw from `render()` would skip `setRenderedImage`, which the model does not represent.
- Toolbox.OnInvert: with the viewport present, `setProperties` and `render()` (Toolbox.tsx lines 50-52) are assumed not to throw.
- Canvas.Mount: the mount's `viewport.setStack(stack).then(() => viewport.render())` (Canvas.tsx line 75) is un-awaited; the model records the stack handed over and assumes the load completes.
- Auth.FirstRender: a consumer reading `isAuthenticated` on the provider's first render sees logged out even when storage says logged in; the private route that acts on it is not part of this model.
- Toolbox.OnInvert: when the viewport is missing, the model assumes the branch's queued state updates still apply after `setProperties` throws on `undefined`.

=== FILE: auth.dfy ===
/** The authentication context: a password check against the configured
    password, an in-memory `isAuthenticated` flag, and a `loggedIn` entry in
    the browser's local storage (a string map here) that survives reloads. */
module Auth {
  import opened Common

  const LoggedInKey: string := "loggedIn"
  const LoggedInValue: string := "true"

  /** `VITE_LOGIN_PASSWORD || REACT_APP_LOGIN_PASSWORD`: the first variable
      wins unless it is unset or empty, in which case the second one is used
      as it is (unset, empty or not). */
  function ConfiguredPassword(vite: Option<string>, react: Option<string>): (p: Option<string>)
    ensures Truthy(vite) ==> p == vite
    ensures !Truthy(vite) ==> p == react
  {
    if vite.Some? && vite.value != "" then vite else react
  }

  datatype AuthState = AuthState(isAuthenticated: bool, storage: map<string, string>)

  /** The stored flag reads as logged in only if it is exactly "true". */
  predicate StoredLoggedIn(storage: map<string, string>) {
    LoggedInKey in storage && storage[LoggedInKey] == LoggedInValue
  }

  /** The provider's first render: `useState(false)` starts logged out
      whatever storage holds; the stored flag is read only by the mount
      effect afterwards. */
  function FirstRender(storage: map<string, string>): (s: AuthState)
    ensures !s.isAuthenticated
    ensures s.storage == storage
  {
    AuthState(false, storage)
  }

  /** The mount effect: the flag becomes whether storage holds exactly
      `loggedIn` = "true"; storage itself is only read. */
  function Restore(s: AuthState): (r: AuthState)
    ensures r.isAuthenticated <==> StoredLoggedIn(s.storage)
    ensures r.storage == s.storage
  {
    s.(isAuthenticated := LoggedInKey in s.storage && s.storage[LoggedInKey] == LoggedInValue)
  }

  datatype LoginResult = LoginResult(state: AuthState, ok: bool)

  function Login(s: AuthState, password: string, configured: Option<string>): (r: LoginResult)
    ensures r.ok <==> configured == Some(password)
    ensures configured.None? ==> !r.ok
    ensures r.ok ==> r.state.isAuthenticated && StoredLoggedIn(r.state.storage)
    ensures r.ok ==> r.state.storage == s.storage[LoggedInKey := LoggedInValue]
    ensures !r.ok ==> r.state == s
  {
    if configured == Some(password) then
      LoginResult(AuthState(true, s.storage[LoggedInKey := LoggedInValue]), true)
    else LoginResult(s, false)
  }

  function Logout(s: AuthState): (r: AuthState)
    ensures !r.isAuthenticated
    ensures LoggedInKey !in r.storage
    ensures r.storage == s.storage - {LoggedInKey}
  {
    AuthState(false, s.storage - {LoggedInKey})
  }

  /** The in-memory flag agrees with what a reload would restore. */
  predicate Consistent(s: AuthState) {
    s.isAuthenticated <==> StoredLoggedIn(s.storage)
  }

  datatype Action = LoginAttempt(password: string) | LogoutAction

  function Perform(s: AuthState, a: Action, configured: Option<string>): AuthState {
    match a
    case LoginAttempt(p) => Login(s, p, configured).state
    case LogoutAction => Logout(s)
  }

  function PerformAll(s: AuthState, actions: seq<Action>, configured: Option<string>): AuthState
    decreases |actions|
  {
    if actions == [] then s else PerformAll(Perform(s, actions[0], configured), actions[1..], configured)
  }

  /** Login and logout keep the flag and storage in step, so after any
      session a reload, once its mount effect has run, has exactly the flag
      the session ended with (its first render is still logged out). */
  lemma {:induction false} SessionSurvivesReload(s: AuthState, actions: seq<Action>, configured: Option<string>)
    requires Consistent(s)
    ensures var e := PerformAll(s, actions, configured);
            Consistent(e) && Restore(FirstRender(e.storage)) == e
    decreases |actions|
  {
    if actions != [] {
      var next := Perform(s, actions[0], configured);
      assert Consistent(next);
      SessionSurvivesReload(next, actions[1..], configured);
    }
  }

  /** Without a configured password no password ever authenticates a
      session that starts logged out. */
  lemma {:induction false} NoPasswordNoLogin(s: AuthState, actions: seq<Action>)
    requires !s.isAuthenticated
    ensures !PerformAll(s, actions, None).isAuthenticated
    decreases |actions|
  {
    if actions != [] {
      NoPasswordNoLogin(Perform(s, actions[0], None), actions[1..]);
    }
  }
}

=== FILE: canvas.dfy ===
/** One canvas of the viewer: a viewport id, whether it accepts drops, and
    whether a drag is hovering over it. Drops route to the store's
    `renderImage` for this canvas's own viewport; on mount the canvas enables
    its viewport, binds it to its tool group and loads the store's stack.

    The engine calls made on mount (`enableElement`, tool-group creation and
    the viewport lookup) are represented by the outcomes they report. */
module Canvas {
  import opened Common
  import ViewerStore

  datatype Canvas = Canvas(viewportId: string, enableDrop: bool, draggingOver: bool)

  /** A freshly rendered canvas; `enableDrop` defaults to true. */
  function New(viewportId: string, enableDrop: Option<bool>): (c: Canvas)
    ensures c.viewportId == viewportId && !c.draggingOver
    ensures c.enableDrop <==> enableDrop != Some(false)
  {
    Canvas(viewportId, if enableDrop.Some? then enableDrop.value else true, false)
  }

  /** The drag-over and drag-enter handlers (they are the same). */
  function DragHover(c: Canvas): (r: Canvas)
    ensures r.draggingOver <==> c.enableDrop || c.draggingOver
    ensures r.(draggingOver := c.draggingOver) == c
  {
    if !c.enableDrop then c else c.(draggingOver := true)
  }

  function DragLeave(c: Canvas): (r: Canvas)
    ensures !r.draggingOver
    ensures r.(draggingOver := c.draggingOver) == c
  {
    c.(draggingOver := false)
  }

  /** A `renderImage(imageId, viewportId)` call issued by a drop. */
  datatype RenderRequest = RenderRequest(imageId: string, viewportId: string)

  datatype DropResult = DropResult(canvas: Canvas, request: Option<RenderRequest>)

  /** The drop handler; `payload` is `getData("imageId")`, which is "" when
      the drag carries no such key. */
  function Drop(c: Canvas, payload: string): (r: DropResult)
    ensures !c.enableDrop ==> r == DropResult(c, None)
    ensures c.enableDrop ==> r.canvas == c.(draggingOver := false)
    ensures r.request.Some? <==> c.enableDrop && payload != ""
    ensures r.request.Some? ==> r.request.value == RenderRequest(payload, c.viewportId)
  {
    if !c.enableDrop then DropResult(c, None)
    else
      var cleared := c.(draggingOver := false);
      if payload != "" then DropResult(cleared, Some(RenderRequest(payload, c.viewportId)))
      else DropResult(cleared, None)
  }

  /** A drag event reaching a canvas. */
  datatype DragEvent = Hover | Leave | DropEvent(payload: string)

  function Apply(c: Canvas, e: DragEvent): Canvas {
    match e
    case Hover => DragHover(c)
    case Leave => DragLeave(c)
    case DropEvent(payload) => Drop(c, payload).canvas
  }

  function ApplyAll(c: Canvas, events: seq<DragEvent>): Canvas
    decreases |events|
  {
    if events == [] then c else ApplyAll(Apply(c, events[0]), events[1..])
  }

  /** A canvas that does not accept drops is never highlighted, whatever
      drag events reach it. */
  lemma {:induction false} NoDropNeverHighlighted(c: Canvas, events: seq<DragEvent>)
    requires !c.enableDrop && !c.draggingOver
    ensures ApplyAll(c, events) == c
    decreases |events|
  {
    if events != [] {
      assert Apply(c, events[0]) == c;
      NoDropNeverHighlighted(c, events[1..]);
    }
  }

  /** A drop that reaches the store: the drop's request, if any, becomes a
      `renderImage` call for this canvas's viewport. */
  function DropIntoStore(s: ViewerStore.Store, c: Canvas, payload: string,
                         engine: ViewerStore.EngineLookup, load: ViewerStore.LoadOutcome): (r: ViewerStore.Store)
    ensures !c.enableDrop || payload == "" ==> r == s
    ensures c.enableDrop && payload != "" ==>
              r == ViewerStore.RenderImage(s, payload, Some(c.viewportId), engine, load).final
  {
    match Drop(c, payload).request
    case None => s
    case Some(req) => ViewerStore.RenderImage(s, req.imageId, Some(req.viewportId), engine, load).final
  }

  /** A drop only touches the loading flag of the canvas's own viewport and
      the shared stack; every other viewport's flag and the rest of the store
      are unchanged. */
  lemma DropIsolation(s: ViewerStore.Store, c: Canvas, payload: string,
                      engine: ViewerStore.EngineLookup, load: ViewerStore.LoadOutcome, other: string)
    requires other != c.viewportId
    ensures var r := DropIntoStore(s, c, payload, engine, load);
            r.(isLoading := s.isLoading, stack := s.stack) == s
            && (other in r.isLoading <==> other in s.isLoading)
            && ViewerStore.LoadingAt(r, other) == ViewerStore.LoadingAt(s, other)
  {
  }

  /** `isLoading[viewportId] ?? false`: the loading overlay of this canvas. */
  function LoadingOverlay(s: ViewerStore.Store, c: Canvas): (shown: bool)
    ensures shown <==> c.viewportId in s.isLoading && s.isLoading[c.viewportId]
  {
    ViewerStore.LoadingAt(s, c.viewportId)
  }

  /** The id of the tool group a canvas binds its viewport to. */
  function ToolGroupId(viewportId: string): string {
    "toolgroup-" + viewportId
  }

  /** What the mount effect meets: the store's engine and the element, the
      existing tool groups (id to bound viewports), whether creating a group
      yields one, whether `enableElement` throws, and whether the engine then
      has the viewport. */
  datatype MountEnv = MountEnv(
    hasEngine: bool,
    hasElement: bool,
    groups: map<string, set<string>>,
    createSucceeds: bool,
    enableThrows: bool,
    viewportExists: bool
  )

  /** The effect of mounting: whether the element was handed to the engine,
      the tool groups afterwards, and the stack loaded into the viewport. */
  datatype MountResult = MountResult(enabled: bool, groups: map<string, set<string>>,
                                     loadedStack: Option<seq<string>>)

  function Mount(viewportId: string, stack: seq<string>, env: MountEnv): (r: MountResult)
    // without engine or element the effect returns at once
    ensures !(env.hasEngine && env.hasElement) ==> r == MountResult(false, env.groups, None)
    ensures env.hasEngine && env.hasElement ==> r.enabled
    // an existing group is reused, not recreated
    ensures ToolGroupId(viewportId) in env.groups ==> r.groups.Keys == env.groups.Keys
    // a failed creation leaves the groups alone and loads nothing
    ensures ToolGroupId(viewportId) !in env.groups && !env.createSucceeds ==>
              r.groups == env.groups && r.loadedStack.None?
    // when the effect gets past the group, the viewport is bound to it
    ensures env.hasEngine && env.hasElement && (ToolGroupId(viewportId) in env.groups || env.createSucceeds) ==>
              ToolGroupId(viewportId) in r.groups && viewportId in r.groups[ToolGroupId(viewportId)]
    // past the group check: the group is reused or created, and the viewport
    // is added to its earlier members; no other group appears
    ensures env.hasEngine && env.hasElement && (ToolGroupId(viewportId) in env.groups || env.createSucceeds) ==>
              r.groups.Keys == env.groups.Keys + {ToolGroupId(viewportId)}
              && r.groups[ToolGroupId(viewportId)]
                 == (if ToolGroupId(viewportId) in env.groups then env.groups[ToolGroupId(viewportId)] else {})
                    + {viewportId}
    // other groups are never touched
    ensures forall g :: g in env.groups && g != ToolGroupId(viewportId) ==> g in r.groups && r.groups[g] == env.groups[g]
    // the stack is loaded only into an existing viewport, and only when non-empty
    ensures r.loadedStack.Some? <==>
              env.hasEngine && env.hasElement && (ToolGroupId(viewportId) in env.groups || env.createSucceeds)
              && env.viewportExists && |stack| > 0
    ensures r.loadedStack.Some? ==> r.loadedStack.value == stack
  {
    if !env.hasEngine || !env.hasElement then MountResult(false, env.groups, None)
    else
      // an `enableElement` error is caught and only logged
      var gid := ToolGroupId(viewportId);
      if gid !in env.groups && !env.createSucceeds then MountResult(true, env.groups, None)
      else
        var members := if gid in env.groups then env.groups[gid] else {};
        var groups := env.groups[gid := members + {viewportId}];
        var loaded := if env.viewportExists && |stack| > 0 then Some(stack) else None;
        MountResult(true, groups, loaded)
  }

  /** An `enableElement` error is caught: the rest of the mount is the same
      whether or not enabling throws. */
  lemma EnableErrorCaught(viewportId: string, stack: seq<string>, env: MountEnv)
    ensures Mount(viewportId, stack, env.(enableThrows := true))
         == Mount(viewportId, stack, env.(enableThrows := false))
  {
  }

  /** Because the store keeps one stack, a drop onto any canvas decides what
      the next canvas to mount loads: after a successful drop of `imageId`,
      mounting a canvas whose viewport exists loads exactly `[imageId]`. */
  lemma DropDecidesNextMount(s: ViewerStore.Store, c: Canvas, imageId: string, vs: set<string>,
                             load: ViewerStore.LoadOutcome, other: string, env: MountEnv)
    requires c.enableDrop && imageId != "" && c.viewportId in vs
    requires env.hasEngine && env.hasElement && env.createSucceeds && env.viewportExists
    ensures var s' := DropIntoStore(s, c, imageId, ViewerStore.Engine(vs), load);
            Mount(other, s'.stack, env).loadedStack == Some([imageId])
  {
  }
}

=== FILE: common.dfy ===
/** Shared vocabulary: optional values (JavaScript's null/undefined) and the
    two string rewrites the viewer performs, `String.prototype.replace` with a
    string pattern (first occurrence only) and with a global character class. */
module Common {

  /** A JavaScript value that may be null or undefined. */
  datatype Option<+T> = None | Some(value: T)

  /** JavaScript truthiness of an optional string: null, undefined and ""
      are all falsy. */
  predicate Truthy(s: Option<string>) {
    s.Some? && s.value != ""
  }

  /** `pat` occurs in `s` starting at index `j`. */
  predicate MatchAt(s: string, pat: string, j: int) {
    0 <= j && j + |pat| <= |s| && s[j..j + |pat|] == pat
  }

  /** Index of the first occurrence of `pat` in `s` at or after `k`. */
  function FindFrom(s: string, pat: string, k: nat): (r: Option<nat>)
    requires k <= |s|
    ensures r.Some? ==> k <= r.value && MatchAt(s, pat, r.value)
    ensures r.Some? ==> forall j :: k <= j < r.value ==> !MatchAt(s, pat, j)
    ensures r.None? ==> forall j :: k <= j ==> !MatchAt(s, pat, j)
    decreases |s| - k
  {
    if MatchAt(s, pat, k) then Some(k)
    else if k == |s| then None
    else FindFrom(s, pat, k + 1)
  }

  /** `s.replace(pat, rep)` with a string pattern and a replacement without
      `$` patterns (`rep` is inserted verbatim): only the first occurrence
      of `pat` is replaced; without an occurrence `s` is returned as is. */
  function ReplaceFirst(s: string, pat: string, rep: string): (r: string)
    ensures (forall j :: !MatchAt(s, pat, j)) ==> r == s
    ensures forall i :: MatchAt(s, pat, i) && (forall j :: 0 <= j < i ==> !MatchAt(s, pat, j)) ==>
              r == s[..i] + rep + s[i + |pat|..]
  {
    match FindFrom(s, pat, 0)
    case None => s
    case Some(i) => s[..i] + rep + s[i + |pat|..]
  }

  /** `s.replace(/[...]/g, sub)`: every character of `targets` becomes `sub`. */
  function ReplaceAllChars(s: string, targets: set<char>, sub: char): (r: string)
    ensures |r| == |s|
    ensures forall i :: 0 <= i < |s| && s[i] in targets ==> r[i] == sub
    ensures forall i :: 0 <= i < |s| && s[i] !in targets ==> r[i] == s[i]
  {
    if s == [] then []
    else [if s[0] in targets then sub else s[0]] + ReplaceAllChars(s[1..], targets, sub)
  }

  /** After a global replacement by a character outside `targets`, no
      character of `targets` is left. */
  lemma ReplaceAllCharsRemovesTargets(s: string, targets: set<char>, sub: char)
    requires sub !in targets
    ensures forall c :: c in ReplaceAllChars(s, targets, sub) ==> c !in targets
  {
  }
}

=== FILE: effect_once.dfy ===
/** `useEffectOnce`: a hook that runs the effect it was first rendered with
    at most once per mounted component, whatever React does with the effect
    callback. Two refs carry its state: `hasRun` and the captured effect. */
module EffectOnce {
  import opened Common

  datatype Hook<E> = Hook(hasRun: bool, effect: E)

  /** The first render: `useRef(false)` and `useRef(effect)`. */
  function Mount<E>(effect: E): (h: Hook<E>)
    ensures !h.hasRun && h.effect == effect
  {
    Hook(false, effect)
  }

  /** A later render: refs keep their first value, so a new effect is ignored. */
  function Rerender<E>(h: Hook<E>, effect: E): (r: Hook<E>)
    ensures r.effect == h.effect && r.hasRun == h.hasRun
  {
    h
  }

  /** One invocation of the inner `useEffect` callback: the hook afterwards,
      the effect run (if any) and the cleanup handed back to React. */
  datatype Fired<E, C> = Fired(hook: Hook<E>, ran: Option<E>, cleanup: Option<C>)

  /** `run` is what calling an effect returns: its cleanup, if any. */
  function Fire<E, C>(h: Hook<E>, run: E -> Option<C>): (r: Fired<E, C>)
    ensures r.hook.hasRun && r.hook.effect == h.effect
    ensures r.ran.Some? <==> !h.hasRun
    ensures r.ran.Some? ==> r.ran.value == h.effect && r.cleanup == run(h.effect)
    ensures r.ran.None? ==> r.cleanup.None?
  {
    if h.hasRun then Fired(h, None, None)
    else Fired(Hook(true, h.effect), Some(h.effect), run(h.effect))
  }

  /** What the hook sees over its component's life. */
  datatype Event<E> = Render(effect: E) | EffectCallback

  /** The effects actually run over a sequence of events. */
  function Runs<E, C>(h: Hook<E>, events: seq<Event<E>>, run: E -> Option<C>): seq<E>
    decreases |events|
  {
    if events == [] then []
    else match events[0]
      case Render(e) => Runs(Rerender(h, e), events[1..], run)
      case EffectCallback =>
        var f := Fire(h, run);
        (if f.ran.Some? then [f.ran.value] else []) + Runs(f.hook, events[1..], run)
  }

  /** From any hook state: nothing runs once `hasRun` is set, and otherwise
      only the captured effect runs, at most once. */
  lemma {:induction false} RunsAtMostOnce<E, C>(h: Hook<E>, events: seq<Event<E>>, run: E -> Option<C>)
    ensures h.hasRun ==> Runs(h, events, run) == []
    ensures |Runs(h, events, run)| <= 1
    ensures forall i :: 0 <= i < |Runs(h, events, run)| ==> Runs(h, events, run)[i] == h.effect
    decreases |events|
  {
    if events != [] {
      match events[0]
      case Render(e) =>
        RunsAtMostOnce(Rerender(h, e), events[1..], run);
      case EffectCallback =>
        var f := Fire(h, run);
        RunsAtMostOnce(f.hook, events[1..], run);
    }
  }

  /** A mounted hook runs, over its whole life, at most the effect it was
      first rendered with. */
  lemma FirstEffectOnly<E, C>(first: E, events: seq<Event<E>>, run: E -> Option<C>)
    ensures var runs := Runs(Mount(first), events, run);
            |runs| <= 1 && (runs != [] ==> runs[0] == first)
  {
    RunsAtMostOnce(Mount(first), events, run);
  }
}

=== FILE: export_dialog.dfy ===
/** Bookkeeping of the export dialog: the default file name, which viewport
    the preview is taken from, when a preview is generated, the loading flag,
    and the download offered on export.

    The clock is an input (the ISO timestamp string). Capturing a viewport's
    canvas, compositing its SVG annotation layers and encoding the result as
    a PNG data URL are one abstract `capture` function of the viewport id and
    the annotations switch; `None` stands for any of the errors those steps
    throw. */
module ExportDialog {
  import opened Common
  import ViewerStore

  const FileNamePrefix: string := "sensvuer-export-"

  /** `"sensvuer-export-" + new Date().toISOString().replace(/[:.]/g, "-")`. */
  function DefaultFileName(isoTimestamp: string): (name: string)
    ensures |name| == |FileNamePrefix| + |isoTimestamp|
    ensures name[..|FileNamePrefix|] == FileNamePrefix
    ensures forall c :: c in name ==> c != ':' && c != '.'
    ensures forall i :: 0 <= i < |isoTimestamp| && isoTimestamp[i] != ':' && isoTimestamp[i] != '.' ==>
              name[|FileNamePrefix| + i] == isoTimestamp[i]
    ensures forall i :: 0 <= i < |isoTimestamp| && (isoTimestamp[i] == ':' || isoTimestamp[i] == '.') ==>
              name[|FileNamePrefix| + i] == '-'
  {
    var stamp := ReplaceAllChars(isoTimestamp, {':', '.'}, '-');
    ReplaceAllCharsRemovesTargets(isoTimestamp, {':', '.'}, '-');
    assert forall c :: c in FileNamePrefix ==> c != ':' && c != '.';
    FileNamePrefix + stamp
  }

  datatype Dialog = Dialog(
    preview: Option<string>,          // data URL of the preview image
    fileName: string,
    includeAnnotations: bool,
    selectedViewport: Option<string>,
    loading: bool
  )

  /** The dialog's state when it is first rendered at time `isoTimestamp`. */
  function Initial(isoTimestamp: string): (d: Dialog)
    ensures d.preview.None? && d.selectedViewport.None? && !d.loading && d.includeAnnotations
    ensures d.fileName == DefaultFileName(isoTimestamp)
  {
    Dialog(None, DefaultFileName(isoTimestamp), true, None, false)
  }

  /** `viewports.find((vp) => vp.id === selectedViewport) ?? viewports[0]`. */
  function PreviewViewport(viewports: seq<string>, selected: Option<string>): (v: Option<string>)
    ensures v.None? <==> viewports == []
    ensures selected.Some? && selected.value in viewports ==> v == selected
    ensures viewports != [] && (selected.None? || selected.value !in viewports) ==> v == Some(viewports[0])
    ensures v.Some? ==> v.value in viewports
  {
    if viewports == [] then None
    else if selected.Some? && selected.value in viewports then selected
    else Some(viewports[0])
  }

  /** `generatePreview(withAnnotations)` run to completion. `rendered` is the
      dialog's `renderedImageId` prop. */
  function GeneratePreview(d: Dialog, hasEngine: bool, rendered: Option<string>,
                           viewports: seq<string>, withAnnotations: bool,
                           capture: (string, bool) -> Option<string>): (r: Dialog)
    // no engine or no rendered image: nothing happens
    ensures !hasEngine || !Truthy(rendered) ==> r == d
    // otherwise the loading flag ends false, whatever the outcome
    ensures hasEngine && Truthy(rendered) ==> !r.loading
    ensures r.(preview := d.preview, loading := d.loading) == d
    // a failure (no viewport, or a capture error) keeps the previous preview
    ensures viewports == [] ==> r.preview == d.preview
    ensures hasEngine && Truthy(rendered) && viewports != [] ==>
              var v := PreviewViewport(viewports, d.selectedViewport).value;
              (capture(v, withAnnotations).None? ==> r.preview == d.preview)
              && (capture(v, withAnnotations).Some? ==> r.preview == capture(v, withAnnotations))
  {
    if !hasEngine || !Truthy(rendered) then d
    else
      var started := d.(loading := true);
      var captured :=
        match PreviewViewport(viewports, d.selectedViewport)
        case None => None
        case Some(v) => capture(v, withAnnotations);
      var done := if captured.Some? then started.(preview := captured) else started;
      done.(loading := false)
  }

  /** The outcome of the dialog's open effect: it runs to the end, or it
      throws because `renderingEngine.getViewports()` is called on a null
      engine (the preview guard has already returned by then). */
  datatype EffectOutcome = Completed(dialog: Dialog) | Threw(dialog: Dialog)

  /** The effect run when the dialog opens (or the annotations switch or the
      selection changes while it is open). */
  function OnOpen(d: Dialog, open: bool, hasEngine: bool, rendered: Option<string>,
                  viewports: seq<string>, capture: (string, bool) -> Option<string>): (r: EffectOutcome)
    ensures !open ==> r == Completed(d)
    ensures open && !hasEngine ==> r == Threw(d)
    ensures open && hasEngine && viewports != [] && !Truthy(d.selectedViewport) ==>
              r.Completed? && r.dialog.selectedViewport == Some(viewports[0])
    ensures open && hasEngine && (viewports == [] || Truthy(d.selectedViewport)) ==>
              r.Completed? && r.dialog.selectedViewport == d.selectedViewport
    ensures open && hasEngine ==>
              r.dialog.(selectedViewport := d.selectedViewport)
              == GeneratePreview(d, hasEngine, rendered, viewports, d.includeAnnotations, capture)
  {
    if !open then Completed(d)
    else
      var previewed := GeneratePreview(d, hasEngine, rendered, viewports, d.includeAnnotations, capture);
      if !hasEngine then Threw(previewed)
      else if |viewports| > 0 && !Truthy(d.selectedViewport) then
        Completed(previewed.(selectedViewport := Some(viewports[0])))
      else Completed(previewed)
  }

  /** On open with nothing selected the preview is taken from the first
      viewport, the one the selection is then set to. */
  lemma OpenPreviewMatchesSelection(d: Dialog, rendered: Option<string>, viewports: seq<string>,
                                    capture: (string, bool) -> Option<string>)
    requires viewports != [] && d.selectedViewport.None? && Truthy(rendered)
    requires capture(viewports[0], d.includeAnnotations).Some?
    ensures var r := OnOpen(d, true, true, rendered, viewports, capture);
            r.Completed? && r.dialog.selectedViewport == Some(viewports[0])
            && r.dialog.preview == capture(r.dialog.selectedViewport.value, d.includeAnnotations)
  {
  }

  /** The Export button is enabled iff a preview exists. */
  predicate ExportEnabled(d: Dialog) {
    Truthy(d.preview)
  }

  /** The file offered for download. */
  datatype Download = Download(fileName: string, href: string)

  /** `handleExport`: the download offered, and whether the dialog asked to
      be closed. */
  datatype ExportResult = ExportResult(download: Option<Download>, closeRequested: bool)

  function HandleExport(d: Dialog): (r: ExportResult)
    ensures !ExportEnabled(d) ==> r == ExportResult(None, false)
    ensures ExportEnabled(d) ==> r.closeRequested && r.download.Some?
    ensures r.download.Some? ==>
              r.download.value.href == d.preview.value
              && r.download.value.fileName == d.fileName + ".png"
  {
    if !Truthy(d.preview) then ExportResult(None, false)
    else ExportResult(Some(Download(d.fileName + ".png", d.preview.value)), true)
  }

  /** A dialog left alone after opening exports the default name with the
      ".png" extension, which holds no ':' and only the extension's '.'. */
  lemma DefaultExportName(isoTimestamp: string, preview: string)
    requires preview != ""
    ensures var r := HandleExport(Initial(isoTimestamp).(preview := Some(preview)));
            r.download.Some?
            && r.download.value.fileName == DefaultFileName(isoTimestamp) + ".png"
            && forall i :: 0 <= i < |r.download.value.fileName| - 4 ==>
                 r.download.value.fileName[i] != ':' && r.download.value.fileName[i] != '.'
  {
  }

  /** `vp.id.replace(/_/g, " ")`, the label of a viewport in the selector. */
  function ViewportLabel(id: string): (shown: string)
    ensures |shown| == |id|
    ensures '_' !in shown
    ensures forall i :: 0 <= i < |id| ==> shown[i] == (if id[i] == '_' then ' ' else id[i])
  {
    ReplaceAllCharsRemovesTargets(id, {'_'}, ' ');
    ReplaceAllChars(id, {'_'}, ' ')
  }

  /** The viewport selector is shown outside the single layout only. */
  predicate SelectorShown(m: ViewerStore.ViewMode) {
    m != ViewerStore.Single
  }
}

=== FILE: image_input.dfy ===
/** The image catalog of the sidebar: the entries added so far, in order,
    and the image highlighted as rendered. Picking files appends one entry per
    file and, when the stack viewport is available, loads the whole catalog
    into it; clicking an entry loads just that image.

    `URL.createObjectURL` is not modelled: each picked file carries the
    object URL it was given. */
module ImageInput {
  import opened Common

  /** Prefix of the image ids handed to the web image loader. */
  const WebPrefix: string := "web:"

  datatype ImageEntry = ImageEntry(id: string, name: string)

  datatype PickedFile = PickedFile(name: string, objectUrl: string)

  datatype Catalog = Catalog(images: seq<ImageEntry>, renderedImage: Option<string>)

  /** `useState([])` and `useState(null)`: no entries, nothing highlighted. */
  function Initial(): (c: Catalog)
    ensures c.images == [] && c.renderedImage.None?
    ensures NoImagesLoaded(c)
  {
    Catalog([], None)
  }

  /** The image id built for an object URL. */
  function ImageIdFor(objectUrl: string): string {
    WebPrefix + objectUrl
  }

  /** The entry built for one picked file. */
  function EntryFor(f: PickedFile): ImageEntry {
    ImageEntry(ImageIdFor(f.objectUrl), f.name)
  }

  /** The entries for a file list, in file order. */
  function EntriesFor(files: seq<PickedFile>): (es: seq<ImageEntry>)
    ensures |es| == |files|
    ensures forall k :: 0 <= k < |files| ==> es[k] == EntryFor(files[k])
  {
    seq(|files|, k requires 0 <= k < |files| => EntryFor(files[k]))
  }

  /** `images.map((img) => img.id)`. */
  function Ids(images: seq<ImageEntry>): (ids: seq<string>)
    ensures |ids| == |images|
    ensures forall k :: 0 <= k < |images| ==> ids[k] == images[k].id
  {
    seq(|images|, k requires 0 <= k < |images| => images[k].id)
  }

  /** The `forEach` over the picked files, pushing an entry and its id for
      each file. */
  method BuildEntries(files: seq<PickedFile>) returns (newImages: seq<ImageEntry>, newImageIds: seq<string>)
    ensures newImages == EntriesFor(files)
    ensures newImageIds == Ids(newImages)
  {
    newImages := [];
    newImageIds := [];
    var i := 0;
    while i < |files|
      invariant 0 <= i <= |files|
      invariant |newImages| == i && |newImageIds| == i
      invariant forall k :: 0 <= k < i ==> newImages[k] == EntryFor(files[k])
      invariant forall k :: 0 <= k < i ==> newImageIds[k] == newImages[k].id
    {
      var file := files[i];
      var imageId := WebPrefix + file.objectUrl;
      newImages := newImages + [ImageEntry(imageId, file.name)];
      newImageIds := newImageIds + [imageId];
      i := i + 1;
    }
  }

  /** One `handleFiles` call: the catalog afterwards, the ids passed to
      `onImagesAdded`, and the stack set on the viewport. */
  datatype FilesResult = FilesResult(catalog: Catalog, notified: Option<seq<string>>,
                                     viewportStack: Option<seq<string>>)

  function HandleFiles(c: Catalog, files: Option<seq<PickedFile>>,
                       engine: bool, viewportExists: bool): (r: FilesResult)
    // a null or empty file list changes nothing
    ensures files.None? || files.value == [] ==> r == FilesResult(c, None, None)
    // otherwise the new entries follow the old ones, in file order
    ensures files.Some? && files.value != [] ==>
              r.catalog.images == c.images + EntriesFor(files.value)
              && r.notified == Some(Ids(r.catalog.images))
    // with engine and viewport the whole catalog is loaded and its first entry highlighted
    ensures files.Some? && files.value != [] && engine && viewportExists ==>
              r.viewportStack == Some(Ids(r.catalog.images))
              && r.catalog.renderedImage == Some(r.catalog.images[0].id)
    // without them the catalog still grows but nothing is loaded or highlighted
    ensures !(engine && viewportExists) ==>
              r.viewportStack.None? && r.catalog.renderedImage == c.renderedImage
  {
    if files.None? || files.value == [] then FilesResult(c, None, None)
    else
      var updated := c.images + EntriesFor(files.value);
      var ids := Ids(updated);
      if engine && viewportExists then
        FilesResult(Catalog(updated, Some(updated[0].id)), Some(ids), Some(ids))
      else
        FilesResult(c.(images := updated), Some(ids), None)
  }

  /** One `handleImageClick` call: the catalog afterwards and the stack set
      on the viewport. */
  datatype ClickResult = ClickResult(catalog: Catalog, viewportStack: Option<seq<string>>)

  function HandleImageClick(c: Catalog, id: string, engine: bool, viewportExists: bool): (r: ClickResult)
    ensures engine && viewportExists ==>
              r.viewportStack == Some([id]) && r.catalog == c.(renderedImage := Some(id))
    ensures !(engine && viewportExists) ==> r == ClickResult(c, None)
    ensures r.catalog.images == c.images
    // after a click that reaches the viewport, exactly the clicked entry has the blue border
    ensures engine && viewportExists ==> forall x :: IsHighlighted(r.catalog, x) <==> x == id
  {
    if !engine || !viewportExists then ClickResult(c, None)
    else ClickResult(c.(renderedImage := Some(id)), Some([id]))
  }

  /** `img.id.replace("web:", "")`, the thumbnail source of an entry. */
  function ThumbnailSrc(id: string): string {
    ReplaceFirst(id, WebPrefix, "")
  }

  /** The thumbnail of an id built from an object URL is that URL, even when
      the URL itself contains "web:". */
  lemma ThumbnailRoundTrip(objectUrl: string)
    ensures ThumbnailSrc(ImageIdFor(objectUrl)) == objectUrl
  {
  }

  /** Every entry `handleFiles` adds shows the object URL of its file. */
  lemma ThumbnailsOfAddedFiles(c: Catalog, files: seq<PickedFile>, engine: bool, viewportExists: bool)
    requires files != []
    ensures var images := HandleFiles(c, Some(files), engine, viewportExists).catalog.images;
            forall k :: 0 <= k < |files| ==>
              ThumbnailSrc(images[|c.images| + k].id) == files[k].objectUrl
              && images[|c.images| + k].name == files[k].name
  {
    var images := HandleFiles(c, Some(files), engine, viewportExists).catalog.images;
    var added := EntriesFor(files);
    assert images == c.images + added;
    forall k | 0 <= k < |files|
      ensures ThumbnailSrc(images[|c.images| + k].id) == files[k].objectUrl
      ensures images[|c.images| + k].name == files[k].name
    {
      assert images[|c.images| + k] == added[k] == EntryFor(files[k]);
      ThumbnailRoundTrip(files[k].objectUrl);
    }
  }

  /** An entry is drawn with a blue border iff it is the rendered image. */
  predicate IsHighlighted(c: Catalog, id: string) {
    c.renderedImage == Some(id)
  }

  /** `images.length === 0`: the "No images loaded" hint is shown. */
  predicate NoImagesLoaded(c: Catalog) {
    |c.images| == 0
  }

  /** The text of the upload button after its icon; JSX keeps the space
      between the icon and "Select". */
  function UploadLabel(c: Catalog): (text: string)
    ensures !NoImagesLoaded(c) ==> text == " Select more Images"
    ensures NoImagesLoaded(c) ==> text == " Select  Images"
  {
    " Select " + (if !NoImagesLoaded(c) then "more" else "") + " Images"
  }

  /** After any successful file pick the button offers "more". */
  lemma LabelAfterPick(c: Catalog, files: seq<PickedFile>, engine: bool, viewportExists: bool)
    requires files != []
    ensures UploadLabel(HandleFiles(c, Some(files), engine, viewportExists).catalog) == " Select more Images"
  {
  }

  /** Several file picks in a row. */
  function PickAll(c: Catalog, picks: seq<seq<PickedFile>>, engine: bool, viewportExists: bool): Catalog
    decreases |picks|
  {
    if picks == [] then c
    else PickAll(HandleFiles(c, Some(picks[0]), engine, viewportExists).catalog, picks[1..], engine, viewportExists)
  }

  /** The entries of all picks, in pick order. */
  function AllEntries(picks: seq<seq<PickedFile>>): seq<ImageEntry>
    decreases |picks|
  {
    if picks == [] then [] else EntriesFor(picks[0]) + AllEntries(picks[1..])
  }

  /** The catalog only grows, by every picked file in order; entries are
      never reordered or dropped. */
  lemma {:induction false} PickAllAppends(c: Catalog, picks: seq<seq<PickedFile>>, engine: bool, viewportExists: bool)
    ensures PickAll(c, picks, engine, viewportExists).images == c.images + AllEntries(picks)
    decreases |picks|
  {
    if picks != [] {
      var next := HandleFiles(c, Some(picks[0]), engine, viewportExists).catalog;
      assert next.images == c.images + EntriesFor(picks[0]);
      PickAllAppends(next, picks[1..], engine, viewportExists);
      assert c.images + EntriesFor(picks[0]) + AllEntries(picks[1..])
          == c.images + (EntriesFor(picks[0]) + AllEntries(picks[1..]));
    }
  }

  /** From the sidebar's initial state, the catalog is exactly the picked
      files' entries, in pick order. */
  lemma PickFromInitial(picks: seq<seq<PickedFile>>, engine: bool, viewportExists: bool)
    ensures PickAll(Initial(), picks, engine, viewportExists).images == AllEntries(picks)
  {
    PickAllAppends(Initial(), picks, engine, viewportExists);
  }
}

=== FILE: toolbox.dfy ===
/** The toolbox: one toggled tool key (`null`, "zoom" or "invert") and the
    invert flag. Pressing a tool's icon toggles it off when it is the toggled
    one and replaces the toggled tool otherwise. The invert button also asks
    the engine's "COLOR_STACK" viewport to invert its colours; what the engine
    lookup finds is a parameter. */
module Toolbox {
  import opened Common

  const ZoomKey: string := "zoom"
  const InvertKey: string := "invert"

  datatype Toolbox = Toolbox(toggledTool: Option<string>, invert: bool)

  function Initial(): Toolbox {
    Toolbox(None, false)
  }

  /** A tool icon is drawn highlighted iff it is the toggled tool. */
  predicate Highlighted(t: Toolbox, key: string) {
    t.toggledTool == Some(key)
  }

  /** The toggled tool is one of the two keys of this toolbox, or none. */
  predicate KnownToggle(t: Toolbox) {
    t.toggledTool.None? || t.toggledTool == Some(ZoomKey) || t.toggledTool == Some(InvertKey)
  }

  function OnZoom(t: Toolbox): (r: Toolbox)
    ensures Highlighted(r, ZoomKey) <==> !Highlighted(t, ZoomKey)
    ensures !Highlighted(r, InvertKey)
    ensures KnownToggle(r)
    ensures r.invert == t.invert
  {
    if t.toggledTool == Some(ZoomKey) then t.(toggledTool := None)
    else t.(toggledTool := Some(ZoomKey))
  }

  /** Zoom toggles: two presses return to the state before them, unless
      invert was toggled, which the first press replaces. */
  lemma ZoomTwice(t: Toolbox)
    requires !Highlighted(t, InvertKey)
    requires KnownToggle(t)
    ensures OnZoom(OnZoom(t)) == t
  {
  }

  /** What `getRenderingEngine("myRenderingEngine")` and
      `getViewport("COLOR_STACK")` find. With the viewport missing,
      `viewport.setProperties` is called on `undefined` and throws. */
  datatype InvertTarget = NoEngine | ViewportMissing | ViewportReady

  /** One press of the invert button: the toolbox afterwards, the `invert`
      property sent to the viewport, and whether the handler threw. */
  datatype InvertPress = InvertPress(toolbox: Toolbox, sent: Option<bool>, threw: bool)

  /** The invert handler as the source writes it: the branch sets the flag to
      whether invert is now toggled, then, with a viewport, the flag read at
      the start of the click is negated, sent, and written over the branch's
      value (the last state write wins). */
  function OnInvert(t: Toolbox, target: InvertTarget): (p: InvertPress)
    ensures Highlighted(p.toolbox, InvertKey) <==> !Highlighted(t, InvertKey)
    ensures !Highlighted(p.toolbox, ZoomKey)
    ensures KnownToggle(p.toolbox)
    ensures p.threw <==> target == ViewportMissing
    ensures target != ViewportReady ==>
              p.sent.None? && p.toolbox.invert == Highlighted(p.toolbox, InvertKey)
    ensures target == ViewportReady ==> p.sent == Some(!t.invert) && p.toolbox.invert == !t.invert
  {
    var branch :=
      if t.toggledTool == Some(InvertKey) then Toolbox(None, false)
      else Toolbox(Some(InvertKey), true);
    match target
    case NoEngine => InvertPress(branch, None, false)
    case ViewportMissing => InvertPress(branch, None, true)
    case ViewportReady => InvertPress(branch.(invert := !t.invert), Some(!t.invert), false)
  }

  /** Invert, zoom, invert with the viewport present: the invert icon ends
      highlighted while the viewport was told to stop inverting. */
  lemma InvertHighlightDiverges()
    ensures var p1 := OnInvert(Initial(), ViewportReady);
            var p3 := OnInvert(OnZoom(p1.toolbox), ViewportReady);
            Highlighted(p3.toolbox, InvertKey) && p3.sent == Some(false) && !p3.toolbox.invert
  {
  }

  /** The invert handler with the evidently intended behaviour: the value sent
      to the viewport and kept in the flag is whether invert is now toggled. */
  function OnInvertIntended(t: Toolbox, target: InvertTarget): (p: InvertPress)
    ensures Highlighted(p.toolbox, InvertKey) <==> !Highlighted(t, InvertKey)
    ensures !Highlighted(p.toolbox, ZoomKey)
    ensures KnownToggle(p.toolbox)
    ensures p.threw <==> target == ViewportMissing
    ensures p.toolbox.invert == Highlighted(p.toolbox, InvertKey)
    ensures p.sent.Some? <==> target == ViewportReady
    ensures p.sent.Some? ==> p.sent.value == p.toolbox.invert
  {
    var branch :=
      if t.toggledTool == Some(InvertKey) then Toolbox(None, false)
      else Toolbox(Some(InvertKey), true);
    match target
    case NoEngine => InvertPress(branch, None, false)
    case ViewportMissing => InvertPress(branch, None, true)
    case ViewportReady => InvertPress(branch, Some(branch.invert), false)
  }

  /** A click on one of the two icons. */
  datatype Click = ZoomClick | InvertClick(target: InvertTarget)

  function Step(t: Toolbox, c: Click): Toolbox {
    match c
    case ZoomClick => OnZoom(t)
    case InvertClick(target) => OnInvertIntended(t, target).toolbox
  }

  function Run(t: Toolbox, clicks: seq<Click>): Toolbox
    decreases |clicks|
  {
    if clicks == [] then t else Run(Step(t, clicks[0]), clicks[1..])
  }

  /** With the corrected invert handler, over any sequence of clicks at most
      one icon is highlighted, the toggled tool is always one of the two keys,
      and a highlighted invert icon means the colours are inverted. */
  lemma {:induction false} RunKeepsInvariant(t: Toolbox, clicks: seq<Click>)
    requires KnownToggle(t)
    requires Highlighted(t, InvertKey) ==> t.invert
    ensures var r := Run(t, clicks);
            KnownToggle(r) && !(Highlighted(r, ZoomKey) && Highlighted(r, InvertKey))
            && (Highlighted(r, InvertKey) ==> r.invert)
    decreases |clicks|
  {
    if clicks != [] {
      var next := Step(t, clicks[0]);
      assert KnownToggle(next);
      assert Highlighted(next, InvertKey) ==> next.invert;
      RunKeepsInvariant(next, clicks[1..]);
    }
  }

  /** The clicks stepped with the invert handler as the source writes it. */
  function RunAsWritten(t: Toolbox, clicks: seq<Click>): Toolbox
    decreases |clicks|
  {
    if clicks == [] then t
    else
      var next := match clicks[0]
        case ZoomClick => OnZoom(t)
        case InvertClick(target) => OnInvert(t, target).toolbox;
      RunAsWritten(next, clicks[1..])
  }

  /** With the source's own invert handler the toggled tool still stays one
      of the two keys and the icons are never both highlighted; only the link
      between the invert highlight and the flag is lost. */
  lemma {:induction false} RunAsWrittenKeepsToggle(t: Toolbox, clicks: seq<Click>)
    requires KnownToggle(t)
    ensures var r := RunAsWritten(t, clicks);
            KnownToggle(r) && !(Highlighted(r, ZoomKey) && Highlighted(r, InvertKey))
    decreases |clicks|
  {
    if clicks != [] {
      var next := match clicks[0]
        case ZoomClick => OnZoom(t)
        case InvertClick(target) => OnInvert(t, target).toolbox;
      assert KnownToggle(next);
      RunAsWrittenKeepsToggle(next, clicks[1..]);
    }
  }

  lemma RunFromInitial(clicks: seq<Click>)
    ensures var r := Run(Initial(), clicks);
            KnownToggle(r) && (Highlighted(r, InvertKey) ==> r.invert)
  {
    RunKeepsInvariant(Initial(), clicks);
  }
}

=== FILE: viewer_page.dfy ===
/** The viewer page: until the store holds a rendering engine it shows a
    loading message; afterwards it mounts the primary canvas plus the
    comparison canvases the layout asks for. */
module ViewerPage {
  import opened ViewerStore

  const DualViewportId: string := "dual-comparison_viewport"
  const QuadViewportId1: string := "quad_viewport_1"
  const QuadViewportId2: string := "quad_viewport_2"
  const QuadViewportId3: string := "quad_viewport_3"

  /** The viewport ids of the mounted canvases, in page order. */
  function MountedViewports(s: Store): (ids: seq<string>)
    ensures !s.hasEngine ==> ids == []
    ensures s.hasEngine ==> |ids| > 0 && ids[0] == PrimaryViewportId
    ensures s.hasEngine && s.viewMode == Single ==> ids == [PrimaryViewportId]
    ensures s.hasEngine && s.viewMode == DualComparison ==> ids == [PrimaryViewportId, DualViewportId]
    ensures s.hasEngine && s.viewMode == QuadComparison ==>
              ids == [PrimaryViewportId, QuadViewportId1, QuadViewportId2, QuadViewportId3]
  {
    if !s.hasEngine then []
    else
      [PrimaryViewportId]
      + (if s.viewMode == DualComparison then [DualViewportId] else [])
      + (if s.viewMode == QuadComparison then [QuadViewportId1, QuadViewportId2, QuadViewportId3] else [])
  }

  /** How many canvases each layout mounts. */
  function ViewportCount(m: ViewMode): nat {
    match m
    case Single => 1
    case DualComparison => 2
    case QuadComparison => 4
  }

  /** Once the engine is set, every layout mounts the primary viewport, the
      number of canvases its name promises, and no id twice. */
  lemma MountedViewportsWellFormed(s: Store)
    requires s.hasEngine
    ensures var ids := MountedViewports(s);
            PrimaryViewportId in ids
            && |ids| == ViewportCount(s.viewMode)
            && forall i, j :: 0 <= i < j < |ids| ==> ids[i] != ids[j]
  {
  }

  /** The React key of the primary canvas; a new key remounts it. */
  function PrimaryCanvasKey(m: ViewMode): string {
    PrimaryViewportId + "-" + ModeName(m)
  }

  /** Two keys sharing a prefix are equal only if their suffixes are. */
  lemma {:induction false} PrefixCancel(p: string, x: string, y: string)
    requires p + x == p + y
    ensures x == y
  {
    assert x == (p + x)[|p|..];
    assert y == (p + y)[|p|..];
  }

  /** Switching layout always changes the primary canvas's key, so the
      primary canvas is remounted and reloads the store's stack. */
  lemma PrimaryKeyDistinct(m1: ViewMode, m2: ViewMode)
    requires m1 != m2
    ensures PrimaryCanvasKey(m1) != PrimaryCanvasKey(m2)
  {
    assert ModeName(m1)[0] != ModeName(m2)[0];
    if PrimaryCanvasKey(m1) == PrimaryCanvasKey(m2) {
      PrefixCancel(PrimaryViewportId + "-", ModeName(m1), ModeName(m2));
    }
  }
}

=== FILE: viewer_store.dfy ===
/** The viewer's global store: whether a rendering engine has been handed to
    it, the one shared image stack, a loading flag per viewport, the selected
    tool, the comparison layout and the id of the rendered image.

    The rendering engine itself is not modelled. `renderImage` looks the
    engine up in the engine's own registry (not in the store field) and asks
    it for a viewport; both lookups, and whether loading the stack into the
    viewport throws, are parameters. */
module ViewerStore {
  import opened Common

  /** Id under which the viewer registers its rendering engine. */
  const RenderingEngineId: string := "sens-vuer_rendering-engine"

  /** Id of the primary stack viewport, shown in every layout. */
  const PrimaryViewportId: string := "primary_viewport"

  /** The three layouts of the viewer page. */
  datatype ViewMode = Single | DualComparison | QuadComparison

  /** The string value the store uses for each layout. */
  function ModeName(m: ViewMode): (name: string)
    ensures name != []
  {
    match m
    case Single => "single"
    case DualComparison => "dual-comparison"
    case QuadComparison => "quad-comparison"
  }

  datatype Store = Store(
    hasEngine: bool,                  // renderingEngine !== null
    renderedImageId: Option<string>,
    tool: Option<string>,
    isLoading: map<string, bool>,     // per-viewport loading flag
    stack: seq<string>,               // the one stack shared by all viewports
    viewMode: ViewMode
  )

  /** The flag a canvas shows for viewport `v`: a missing key reads as false. */
  predicate LoadingAt(s: Store, v: string) {
    v in s.isLoading && s.isLoading[v]
  }

  /** No viewport shows a loading overlay. */
  predicate Quiescent(s: Store) {
    forall v :: v in s.isLoading ==> !s.isLoading[v]
  }

  /** The state the store is created with. */
  function Initial(): (s: Store)
    ensures !s.hasEngine && s.tool.None? && s.renderedImageId.None?
    ensures s.stack == [] && s.viewMode == Single
    ensures s.isLoading == map[]
    ensures forall v :: !LoadingAt(s, v)
    ensures Quiescent(s)
  {
    Store(false, None, None, map[], [], Single)
  }

  function SetRenderingEngine(s: Store): (r: Store)
    ensures r.hasEngine
    ensures r.(hasEngine := s.hasEngine) == s
  {
    s.(hasEngine := true)
  }

  function SetRenderedImageId(s: Store, id: string): (r: Store)
    ensures r.renderedImageId == Some(id)
    ensures r.(renderedImageId := s.renderedImageId) == s
  {
    s.(renderedImageId := Some(id))
  }

  function SetTool(s: Store, tool: Option<string>): (r: Store)
    ensures r.tool == tool
    ensures r.(tool := s.tool) == s
  {
    s.(tool := tool)
  }

  function SetStack(s: Store, stack: seq<string>): (r: Store)
    ensures r.stack == stack
    ensures r.(stack := s.stack) == s
  {
    s.(stack := stack)
  }

  function SetViewMode(s: Store, mode: ViewMode): (r: Store)
    ensures r.viewMode == mode
    ensures r.(viewMode := s.viewMode) == s
  {
    s.(viewMode := mode)
  }

  /** Sets one viewport's loading flag; every other viewport's entry, present
      or absent, is left as it was. */
  function SetIsLoading(s: Store, v: string, loading: bool): (r: Store)
    ensures r.isLoading.Keys == s.isLoading.Keys + {v}
    ensures LoadingAt(r, v) == loading
    ensures forall w :: w != v ==> (w in r.isLoading <==> w in s.isLoading)
    ensures forall w :: w != v && w in s.isLoading ==> r.isLoading[w] == s.isLoading[w]
    ensures r.(isLoading := s.isLoading) == s
  {
    s.(isLoading := s.isLoading[v := loading])
  }

  /** What `getRenderingEngine(RenderingEngineId)` finds: nothing, or an
      engine with the given set of enabled viewport ids. */
  datatype EngineLookup = NoEngine | Engine(viewports: set<string>)

  /** Whether `await viewport.setStack(...)` and `viewport.render()` both
      complete, or one of them throws. */
  datatype LoadOutcome = LoadOk | LoadThrows

  /** One `renderImage` call: the store when it returns, the store while the
      stack load is awaited (if it got that far), the stack handed to the
      viewport, and whether `setStack` and `render()` both completed. */
  datatype RenderTrace = RenderTrace(
    final: Store,
    inFlight: Option<Store>,
    issued: Option<seq<string>>,
    rendered: bool
  )

  /** `viewportId ?? stackViewportId`. */
  function TargetViewport(viewportId: Option<string>): (t: string)
    ensures viewportId.None? ==> t == PrimaryViewportId
    ensures viewportId.Some? ==> t == viewportId.value
  {
    match viewportId
    case None => PrimaryViewportId
    case Some(v) => v
  }

  function RenderImage(s: Store, imageId: string, viewportId: Option<string>,
                       engine: EngineLookup, load: LoadOutcome): (t: RenderTrace)
    // no engine: nothing at all happens
    ensures engine.NoEngine? ==> t == RenderTrace(s, None, None, false)
    // past the engine check the target's loading flag always ends false
    ensures engine.Engine? ==>
              TargetViewport(viewportId) in t.final.isLoading && !LoadingAt(t.final, TargetViewport(viewportId))
    // a missing viewport leaves the stack alone and issues no load
    ensures engine.Engine? && TargetViewport(viewportId) !in engine.viewports ==>
              t.final.stack == s.stack && t.issued.None? && t.inFlight.None? && !t.rendered
    // an existing viewport: the shared stack becomes [imageId], whatever the load does
    ensures engine.Engine? && TargetViewport(viewportId) in engine.viewports ==>
              t.final.stack == [imageId] && t.issued == Some([imageId]) && (t.rendered <==> load.LoadOk?)
    // a load is awaited exactly when one is issued, and meanwhile the target
    // shows its loading overlay and only its flag and the stack have changed
    ensures t.inFlight.Some? <==> t.issued.Some?
    ensures t.inFlight.Some? ==>
              LoadingAt(t.inFlight.value, TargetViewport(viewportId)) && t.inFlight.value.stack == [imageId]
    ensures t.inFlight.Some? ==> t.inFlight.value.(isLoading := s.isLoading, stack := s.stack) == s
    ensures t.inFlight.Some? ==>
              forall w :: w != TargetViewport(viewportId) ==>
                (w in t.inFlight.value.isLoading <==> w in s.isLoading)
                && (w in s.isLoading ==> t.inFlight.value.isLoading[w] == s.isLoading[w])
    // only the target's loading flag and the shared stack ever change
    ensures t.final.(isLoading := s.isLoading, stack := s.stack) == s
    ensures forall w :: w != TargetViewport(viewportId) ==> (w in t.final.isLoading <==> w in s.isLoading)
    ensures forall w :: w != TargetViewport(viewportId) && w in s.isLoading ==>
              t.final.isLoading[w] == s.isLoading[w]
  {
    match engine
    case NoEngine => RenderTrace(s, None, None, false)
    case Engine(viewports) =>
      var target := TargetViewport(viewportId);
      var started := SetIsLoading(s, target, true);
      if target !in viewports then
        RenderTrace(SetIsLoading(started, target, false), None, None, false)
      else
        var loading := SetStack(started, [imageId]);
        RenderTrace(SetIsLoading(loading, target, false), Some(loading), Some([imageId]), load.LoadOk?)
  }

  /** Whether the engine's load succeeds or throws, the store ends the same:
      the error is swallowed and the stack was replaced before the load. */
  lemma RenderOutcomeIrrelevant(s: Store, imageId: string, viewportId: Option<string>, engine: EngineLookup)
    ensures RenderImage(s, imageId, viewportId, engine, LoadOk).final
         == RenderImage(s, imageId, viewportId, engine, LoadThrows).final
  {
  }

  /** One `renderImage` call together with the environment it meets. */
  datatype RenderCall = RenderCall(imageId: string, viewportId: Option<string>,
                                   engine: EngineLookup, load: LoadOutcome)

  /** The store after a sequence of completed `renderImage` calls. */
  function RenderAll(s: Store, calls: seq<RenderCall>): (r: Store)
    decreases |calls|
  {
    if calls == [] then s
    else
      var c := calls[0];
      RenderAll(RenderImage(s, c.imageId, c.viewportId, c.engine, c.load).final, calls[1..])
  }

  /** No stuck loading: once every call has returned, no viewport that was
      idle before is still marked as loading. */
  lemma {:induction false} RenderAllQuiescent(s: Store, calls: seq<RenderCall>)
    requires Quiescent(s)
    ensures Quiescent(RenderAll(s, calls))
    ensures RenderAll(s, calls).(isLoading := s.isLoading, stack := s.stack) == s
    decreases |calls|
  {
    if calls != [] {
      var c := calls[0];
      var next := RenderImage(s, c.imageId, c.viewportId, c.engine, c.load).final;
      assert Quiescent(next);
      RenderAllQuiescent(next, calls[1..]);
    }
  }

  /** With one shared stack, the stack after any sequence of calls is
      `[imageId]` of the last call that found its viewport. */
  lemma {:induction false} RenderAllLastWins(s: Store, calls: seq<RenderCall>)
    requires calls != []
    requires var c := calls[|calls| - 1];
             c.engine.Engine? && TargetViewport(c.viewportId) in c.engine.viewports
    ensures RenderAll(s, calls).stack == [calls[|calls| - 1].imageId]
    decreases |calls|
  {
    var c := calls[0];
    var next := RenderImage(s, c.imageId, c.viewportId, c.engine, c.load).final;
    if |calls| > 1 {
      assert calls[1..][|calls[1..]| - 1] == calls[|calls| - 1];
      RenderAllLastWins(next, calls[1..]);
    } else {
      assert RenderAll(next, calls[1..]) == next;
    }
  }
}
